=== FILE: README.md ===
# Munager core, in Dafny

Munager is an agent that runs next to a proxy server. It polls a panel's API for the users the node should serve, and it keeps a local proxy manager in step with that list. It also reports the traffic each user has used back to the panel. This project models the agent's two pieces of decision logic and the periods at which they run. It proves properties of each.

- **Reconciliation pass** (`Munager.update_manager`, module `Reconcile`). The pass fetches the node info and the declared users. It then removes every active user that is no longer wanted. Next it adds every available declared user that is not active. An active user whose record differs from the declared one is replaced, which means removed and, if the removal succeeded, added again. When the change flag or the first-run flag is set, the pass writes the configuration, restarts the proxy and clears both flags. The pass is a pure function. It returns the calls made on the manager, in order, together with the agent's state after the pass.
- **Traffic accountant** (`Munager.upload_throughput`, module `Traffic`). For each active user, the accountant compares the sum of the live upload and download counters with the sum of the stored baseline.
  - A smaller sum is an anomaly. The baseline is reset to the live counters and nothing is reported.
  - A larger sum sends the per-component delta to the panel. The baseline advances only when the panel acknowledges the upload.
  - Users whose sum moved are counted as online.

  The manager's baseline store is a ledger map.
- **Periods** (`run` and `_second_to_msecond`, module `Schedule`). Each callback period is read from the configuration in seconds, with a per-task default, and converted to milliseconds.

Module `Users` holds the shared records. A Python dictionary becomes a `Table`, which is a map together with the order in which iterating the dictionary visits its keys. That order decides the order of the calls.

`update_manager` never sets `if_user_change` because the diff changed something. Only the manager's own `add`/`remove` may raise it. Those are defined in V2Manager, which this model leaves abstract, so that raise is the parameter `managerSets`.

## Model

| member | source | states |
|---|---|---|
| Reconcile.PlanOf | Munager/__init__.py:68-82 | The ids to remove, add and replace are pairwise disjoint. Removals and replacements are active ids, and additions are not. Replacements stay active. Removing and adding leaves exactly the available declared ids active. |
| Reconcile.RemovePass | Munager/__init__.py:68-71 | The first loop issues only removals, and only of active ids that are undeclared or declared unavailable. |
| Reconcile.RemovePassCovers | Munager/__init__.py:68-71 | Every stale active id is removed. |
| Reconcile.RemovePassSilent | Munager/__init__.py:68-71 | The first loop issues nothing exactly when no active id is stale. |
| Reconcile.AddStep | Munager/__init__.py:74-82 | A fresh id is added with its declared record. A rotated id is removed, then re-added only when the removal returned true. Any other id gets no call. |
| Reconcile.AddPass | Munager/__init__.py:74-82 | The second loop issues only adds and removes of declared ids. Every add carries the declared record and goes to a fresh id, or to a rotated id whose removal succeeded. Every remove goes to a rotated id. |
| Reconcile.AddPassCovers | Munager/__init__.py:74-82 | Every fresh id is added. Every rotated id is removed, and re-added when its removal succeeded. |
| Reconcile.AddPassSilent | Munager/__init__.py:74-82 | The second loop issues nothing exactly when no declared id is fresh or rotated. |
| Reconcile.RotationIsRemoveThenAdd | Munager/__init__.py:79-82 | For a rotated id whose removal succeeded, the re-add comes immediately after the removal. |
| Reconcile.Diff | Munager/__init__.py:67-82 | The two loops issue only removes and adds. |
| Reconcile.RemovePassIds | Munager/__init__.py:68-71 | The first loop removes exactly the stale ids and adds nothing. |
| Reconcile.AddPassRemovedIds | Munager/__init__.py:79-81 | The second loop removes exactly the rotated ids. |
| Reconcile.AddPassAddedIds | Munager/__init__.py:74-82 | The second loop adds exactly the fresh ids and the rotated ids whose removal succeeded. |
| Reconcile.AmongIsPlan | Munager/__init__.py:68-79 | Over a dictionary's iteration order, the stale, rotated and gained ids are exactly those of the plan. |
| Reconcile.DiffRemovals | Munager/__init__.py:68-81 | The removed ids are exactly the stale ids plus the rotated ids. Credential inequality plays no part in which stale ids go. |
| Reconcile.DiffAdditions | Munager/__init__.py:74-82 | The added ids are exactly the fresh ids plus the rotated ids whose removal succeeded. Every add carries the declared record. |
| Reconcile.RemovalsFirst | Munager/__init__.py:67-82 | Suppose the first loop neither adds nor starts a replacement, and the second removes no stale id. Then every stale removal precedes every add and every replacement's removal. |
| Reconcile.DiffOrdering | Munager/__init__.py:67-82 | Every removal of a stale id comes before every add and before every removal that starts a replacement. Each successful replacement is a removal immediately followed by its re-add. |
| Reconcile.DiffOfSyncedIsEmpty | Munager/__init__.py:68-82 | Once the active users are exactly the available declared ones, a second diff issues no call. This assumes a record never differs from itself. |
| Reconcile.DiffOnce | Munager/__init__.py:67-82 | A pass removes each id at most once and adds each id at most once, because both dicts have distinct keys and no id is both stale and rotated. |
| Reconcile.RemovePassOnce | Munager/__init__.py:68-71 | The first loop removes each active id at most once. |
| Reconcile.AddPassOnce | Munager/__init__.py:74-82 | The second loop removes each declared id at most once and adds it at most once. |
| Reconcile.AddStepOnce | Munager/__init__.py:74-82 | One iteration of the second loop removes its id at most once and adds it at most once. |
| Reconcile.RemovesOnceAppend | Munager/__init__.py:67-82 | Two call lists that each remove an id at most once, and share no removed id, together remove each id at most once. |
| Reconcile.AddsOnceAppend | Munager/__init__.py:67-82 | The same for adds. |
| Reconcile.EffectOfRemovePass | Munager/__init__.py:68-71 | Applied to a set of active ids, the first loop's calls take away exactly the stale ids. |
| Reconcile.EffectOfReplace | Munager/__init__.py:81 | A remove followed by an add of the same id leaves that id active. |
| Reconcile.EffectOfAddStep | Munager/__init__.py:74-82 | When every remove returns true and every add takes effect, one iteration of the second loop leaves its id active exactly when the id is fresh or rotated. Otherwise nothing changes. |
| Reconcile.EffectOfAddPass | Munager/__init__.py:74-82 | When every remove returns true and every add takes effect, the second loop makes exactly the fresh and rotated ids active. |
| Reconcile.KeptAndGainedAreAvailable | Munager/__init__.py:68-82 | The active ids that are not stale, together with the fresh and rotated ids, are exactly the available declared ids. |
| Reconcile.DiffConverges | Munager/__init__.py:67-82 | When every remove returns true and every add takes effect, applying the pass's calls to the active ids yields exactly the available declared ids. |
| Reconcile.Start | Munager/__init__.py:23-29 | After start-up the first-run flag is set and the node info is the one fetched. |
| Reconcile.Refresh | Munager/__init__.py:56-60 | A changed node info is adopted, pushed to the manager and raises the change flag. An unchanged one makes no call and raises nothing. |
| Reconcile.Settle | Munager/__init__.py:87-92 | Both flags end clear. The write and restart happen exactly when a flag was set, after the calls already made, and as the last calls. |
| Reconcile.FullPass | Munager/__init__.py:55-92 | A pass that gets both answers ends with both flags clear. It restarts exactly when the change flag, a node-info change, the manager's own change or the first-run flag asks for it, and the restart is then last. A changed node info is the first call, and an unchanged one is never pushed. The calls are exactly that push, then the diff's calls in order, then the write-and-restart sequence. |
| Reconcile.UpdateManager | Munager/__init__.py:55-92 | A failed node-info fetch changes nothing. A failed user fetch makes only the node-info push, and only if the info changed; it keeps that change recorded and does not restart. A full pass clears both flags and restarts exactly when a flag asks for it. Its calls are the node-info push if the info changed, then both loops' calls in order, then the write-and-restart sequence if a flag asks for it. |
| Reconcile.FramedIds | Munager/__init__.py:60-92 | Calls that are neither removes nor adds, placed around the diff, change neither the removed nor the added ids. |
| Reconcile.FullPassIds | Munager/__init__.py:55-92 | A full pass removes and adds exactly what its diff removes and adds. The node-info push and the flush remove and add nothing. |
| Reconcile.PassFollowsPlan | Munager/__init__.py:55-92 | A pass that gets both answers removes exactly the stale and rotated ids. It adds exactly the fresh ids and the rotated ids whose removal succeeded. |
| Reconcile.FirstPassFlushes | Munager/__init__.py:87-92 | The first pass that reaches the panel always writes and restarts, and it clears the first-run flag. |
| Reconcile.NodeInfoChangeSurvivesFailedFetch | Munager/__init__.py:56-62 | A node-info change seen by a pass whose user fetch failed still makes the next full pass restart. |
| Reconcile.QuietPassIsSilent | Munager/__init__.py:55-92 | After a completed pass, with the same node info, no change from the manager and the proxy in sync, a pass makes no call and leaves the state unchanged. This assumes a record never differs from itself. |
| Traffic.StepUser | Munager/__init__.py:99-117 | A user is online exactly when its total moved. A delta is sent exactly when the total grew, and that delta carries the baseline to the live counters. The only value ever stored is the live counters. They are stored exactly on an anomaly, or on growth the panel acknowledged. |
| Traffic.WriteIsolated | Munager/__init__.py:104-112 | Storing one user's baseline leaves every other user's entry, and so every other user's step, unchanged. |
| Traffic.PrependUpload | Munager/__init__.py:98-110 | At most one upload for one user, put in front of uploads that are each for a different other user, keeps every upload for a different user. |
| Traffic.AccountFrom | Munager/__init__.py:96-117 | Users outside the loop keep their entry. Each user in the loop ends with the entry its own step writes, computed against the ledger from before the loop. The uploads are exactly the sent deltas, at most one per user. |
| Traffic.MovedAmongCons | Munager/__init__.py:98-106 | Splitting off the first user splits the set of moved users, and a store by that user does not affect the rest. |
| Traffic.OnlineCountsMovedUsers | Munager/__init__.py:97-106 | The online count equals the number of users whose total moved. |
| Traffic.Account | Munager/__init__.py:95-121 | One run stores entries only for active users, and each of those is its own step's. The uploads are exactly the sent deltas of active users, at most one per user. The posted count is the number of active users whose total moved. |
| Traffic.OnlineIgnoresReplies | Munager/__init__.py:101-121 | The posted online count does not depend on how the uploads fared. |
| Traffic.AnomalyIsAbsorbed | Munager/__init__.py:101-104 | After a backwards total, the baseline becomes exactly the live counters and nothing is uploaded for that user, whatever the panel answers. |
| Traffic.RetryResendsFromSameBaseline | Munager/__init__.py:105-117 | An upload the panel refused or that raised leaves the baseline unchanged. The next run therefore recomputes the delta from the same baseline. |
| Traffic.AckAdvancesBaseline | Munager/__init__.py:109-112 | An acknowledged upload moves the baseline to the counters it was computed from. The next delta is measured from there. |
| Traffic.BaselineIsSomeLiveReading | Munager/__init__.py:101-112 | Over any series of runs, the baseline is the initial one or one of the live readings. |
| Traffic.StepConserves | Munager/__init__.py:101-112 | One run moves the baseline total by the acknowledged growth plus the anomaly jump, and by nothing else. |
| Traffic.BaselineMovesOnlyByAckOrReset | Munager/__init__.py:101-112 | Over a series of runs, the baseline total moves by the sum of the acknowledged growths plus the sum of the anomaly jumps. |
| Traffic.ClimbingTail | Munager/__init__.py:105-112 | Non-decreasing readings stay non-decreasing after the first run. |
| Traffic.AckedDeltasTelescope | Munager/__init__.py:105-112 | Over all-acknowledged, non-decreasing readings, the summed uploaded deltas equal the final total minus the initial one. The final baseline total is the last reading's. |
| Traffic.LedgerFollowsReplay | Munager/__init__.py:95-117 | Over a series of traffic runs in which a user stays active, and between which only those runs' own stores change the ledger, its ledger entry evolves exactly as the single-user replay of its readings and replies. |
| Schedule.Millis | Munager/__init__.py:127-130 | The conversion yields a whole number of seconds in milliseconds, and dividing by 1000 gives the seconds back. |
| Schedule.PeriodsOf | Munager/__init__.py:145-164 | Each period is a whole number of seconds in milliseconds, and that number of seconds is its own key's setting, or the key's default when it is absent. DefaultPeriods and SettingOneKey pin down the result for the defaults and for setting one key. |
| Schedule.DefaultPeriods | Munager/__init__.py:145-164 | With no keys set, the periods are 60000, 360000, 60000 and 21600000 ms. |
| Schedule.SettingOneKey | Munager/__init__.py:145-164 | Setting one key makes its own period that many seconds in milliseconds, and changes no other period. |

## Left out

- `_uptime` and `_load` read `/proc` and run a shell pipeline. This is operating-system I/O, and the uptime is a float.
- `upload_serverload` and `upload_speedtest` are thin wrappers over the network and the speed-test thread, with no decision logic of their own.
- Tornado scheduling (`PeriodicCallback`, `IOLoop`, coroutines and `yield`) and the `KeyboardInterrupt` teardown in `run` are not modelled. Only the period values are kept. Each pass is modelled as running to completion on its own.
- Logging is not modelled.
- The panel client and the proxy manager are not part of this model. Their answers are parameters:
  - the fetched node info and users, where `None` means the request raised;
  - the active snapshot, taken once before the loops, as the code reads it;
  - `differs`, the record inequality, defined by the user class, which this model leaves abstract;
  - `removeOk`, the truth value `remove` returns;
  - `managerSets`, whether the manager raised its own change flag during the diff;
  - `reply`, the panel's answer to each traffic upload.
- The manager's `add` returns a value that the code only logs, so that value is not modelled.
- Reconcile.FullPass: `update_manager` raises the change flag only for a node-info change. Whether `add`/`remove` raise it is defined in V2Manager, which this model leaves abstract. That raise is the parameter `managerSets`, so nothing is claimed either way.
- Reconcile.DiffOfSyncedIsEmpty assumes that a record never differs from itself (`!differs(u, u)`). That holds when the user class defines equality on its fields. If the class compared by identity instead, the manager's record and the panel's record would always differ. Every active available user would then be replaced on every pass.
- Reconcile.QuietPassIsSilent makes the same assumption. Under identity comparison no pass with active available users would be silent.
- Manager and panel calls are assumed to return rather than raise, apart from the two fetches at the start of a pass and the traffic upload, which are modelled.
  - In `update_manager` nothing is caught. A `remove`, `add`, `update_config`, `loader.write` or `restart` that raises ends the pass. The calls after it are not made. If the raise comes before lines 90-91, `if_user_change` and `first_time_start` stay set, so the next pass flushes again.
  - In `upload_throughput`, `get_last_traffic` and `get_throughput` run outside the `try`. If either raises, the run ends for all remaining users and no online count is posted.
  - `post_online_user` catches only `HTTPError`. Any other exception ends the run after the per-user loop.
- Traffic.Account: the baseline for a user the manager has never stored is the parameter `fallback`. How the manager answers then is defined in V2Manager, which this model leaves abstract, so no property depends on it.
- Traffic.Account: uploads are keyed by the prefixed id. The panel-side user id that `get_last_traffic` also returns is not modelled.
- Traffic.BaselineMovesOnlyByAckOrReset: the series results are stated on totals (upload plus download), the quantity the code classifies on. They are not stated per component.
- Traffic.LedgerFollowsReplay: the ledger changes only through the accountant's own stores between two runs. The reconciliation passes that run in between (about six per traffic run with the default periods) may remove and re-add a rotated user while it stays active; whether the manager then drops or resets that user's stored counters is defined in V2Manager, which this model leaves abstract, so such a remove or re-add is not modelled and the lemma promises nothing across one.
- Schedule.DefaultPeriods: configuration values are whole seconds. A float or non-numeric setting is not modelled.

=== FILE: reconcile.dfy ===
/** The reconciliation pass (`Munager.update_manager`): diff the users the
    panel declares against the users the proxy manager has active, issue the
    remove and add calls in the order the two loops issue them, and write the
    configuration and restart the proxy when the change flag or the first-run
    flag asks for it.

    Three things the pass consults are defined in V2Manager and the user
    class, which this model leaves abstract, and so are parameters:
    `differs`, the inequality of a declared record and an active record;
    `removeOk`, the truth value `manager.remove` returns; and `managerSets`,
    whether the manager itself raised its change flag during the diff. */
module Reconcile {
  import opened Users

  /** What `get_node_info` returns; only its equality matters here. */
  type NodeInfo = map<string, string>

  /** The calls the pass makes on the proxy manager, in the order made. */
  datatype Call =
    | SetNodeInfo(info: NodeInfo)
    | Remove(id: Id)
    | Add(id: Id, user: User)
    | UpdateConfig
    | WriteConfig
    | Restart

  /** An active user the panel no longer wants: undeclared, or declared unavailable. */
  predicate Stale(remote: map<Id, User>, id: Id) {
    id !in remote || !remote[id].available
  }

  /** A declared, available user that is not active yet. */
  predicate Fresh(remote: map<Id, User>, active: map<Id, User>, id: Id) {
    id in remote && remote[id].available && id !in active
  }

  /** A declared, available, active user whose active record differs from
      the declared one (a changed method, password or port). */
  predicate Rotated(remote: map<Id, User>, active: map<Id, User>,
                    differs: (User, User) -> bool, id: Id)
  {
    id in remote && remote[id].available && id in active && differs(remote[id], active[id])
  }

  /** The ids the panel wants active. */
  function AvailableIds(remote: map<Id, User>): set<Id> {
    set id | id in remote && remote[id].available
  }

  /** The three decisions of one pass, as sets of ids. */
  datatype Plan = Plan(toRemove: set<Id>, toAdd: set<Id>, toReplace: set<Id>)

  /** The decisions of one pass. No id is in two of the sets, and after the
      removals and additions the active ids are exactly the available ones;
      replacements touch only ids that stay active. */
  function PlanOf(remote: map<Id, User>, active: map<Id, User>,
                  differs: (User, User) -> bool): (p: Plan)
    ensures p.toRemove !! p.toAdd && p.toRemove !! p.toReplace && p.toAdd !! p.toReplace
    ensures p.toRemove <= active.Keys && p.toReplace <= active.Keys && p.toAdd !! active.Keys
    ensures (active.Keys - p.toRemove) + p.toAdd == AvailableIds(remote)
    ensures p.toReplace <= active.Keys - p.toRemove
  {
    Plan(set id | id in active && Stale(remote, id),
         set id | id in remote && Fresh(remote, active, id),
         set id | id in remote && Rotated(remote, active, differs, id))
  }

  /** The first loop: walk the active ids and remove each stale one. The
      manager's answer is ignored. */
  function RemovePass(order: seq<Id>, remote: map<Id, User>): (calls: seq<Call>)
    ensures forall c :: c in calls ==> c.Remove? && c.id in order && Stale(remote, c.id)
  {
    if order == [] then []
    else
      (if Stale(remote, order[0]) then [Remove(order[0])] else [])
      + RemovePass(order[1..], remote)
  }

  /** The first loop removes every stale active id. */
  lemma {:induction false} RemovePassCovers(order: seq<Id>, remote: map<Id, User>)
    ensures forall id :: id in order && Stale(remote, id) ==> Remove(id) in RemovePass(order, remote)
    decreases |order|
  {
    if order != [] {
      RemovePassCovers(order[1..], remote);
      var calls := RemovePass(order, remote);
      if Stale(remote, order[0]) {
        assert calls[0] == Remove(order[0]);
      }
    }
  }

  /** So the first loop is silent exactly when no active id is stale. */
  lemma RemovePassSilent(order: seq<Id>, remote: map<Id, User>)
    ensures RemovePass(order, remote) == [] <==> forall id :: id in order ==> !Stale(remote, id)
  {
    RemovePassCovers(order, remote);
    var calls := RemovePass(order, remote);
    if calls != [] {
      assert calls[0] in calls;
    }
  }

  /** A declared id the second loop makes active: fresh, or rotated. */
  predicate Gains(remote: map<Id, User>, active: map<Id, User>,
                  differs: (User, User) -> bool, id: Id)
  {
    Fresh(remote, active, id) || Rotated(remote, active, differs, id)
  }

  /** One iteration of the second loop, for a declared id. A fresh user is
      added; a rotated one is removed, and re-added only when the removal
      reported success. */
  function AddStep(id: Id, remote: map<Id, User>, active: map<Id, User>,
                   differs: (User, User) -> bool, removeOk: Id -> bool): (calls: seq<Call>)
    requires id in remote
    ensures Fresh(remote, active, id) ==> calls == [Add(id, remote[id])]
    ensures Rotated(remote, active, differs, id) ==>
      calls == [Remove(id)] + (if removeOk(id) then [Add(id, remote[id])] else [])
    ensures !Gains(remote, active, differs, id) ==> calls == []
    ensures forall c :: c in calls ==> (c.Add? || c.Remove?) && c.id == id
    ensures forall c :: c in calls && c.Add? ==>
      c.user == remote[id] && (Fresh(remote, active, id) || (Rotated(remote, active, differs, id) && removeOk(id)))
    ensures forall c :: c in calls && c.Remove? ==> Rotated(remote, active, differs, id)
  {
    var user := remote[id];
    (if user.available && id !in active then [Add(id, user)] else [])
    + (if user.available && id in active && differs(user, active[id]) then
         [Remove(id)] + (if removeOk(id) then [Add(id, user)] else [])
       else [])
  }

  /** The second loop, over the declared ids. Every add carries the declared
      record and goes to a fresh id or to a rotated id whose removal
      succeeded; removes go to rotated ids only. */
  function AddPass(order: seq<Id>, remote: map<Id, User>, active: map<Id, User>,
                   differs: (User, User) -> bool, removeOk: Id -> bool): (calls: seq<Call>)
    requires forall id :: id in order ==> id in remote
    ensures forall c :: c in calls ==> (c.Add? || c.Remove?) && c.id in order
    ensures forall c :: c in calls && c.Add? ==>
      && c.user == remote[c.id]
      && (Fresh(remote, active, c.id) || (Rotated(remote, active, differs, c.id) && removeOk(c.id)))
    ensures forall c :: c in calls && c.Remove? ==> Rotated(remote, active, differs, c.id)
  {
    if order == [] then []
    else
      AddStep(order[0], remote, active, differs, removeOk)
      + AddPass(order[1..], remote, active, differs, removeOk)
  }

  /** The second loop adds every fresh declared id, and removes every
      rotated one and re-adds it when the removal succeeded. */
  lemma {:induction false} AddPassCovers(order: seq<Id>, remote: map<Id, User>, active: map<Id, User>,
                                         differs: (User, User) -> bool, removeOk: Id -> bool)
    requires forall id :: id in order ==> id in remote
    ensures var calls := AddPass(order, remote, active, differs, removeOk);
            && (forall id :: id in order && Fresh(remote, active, id) ==> Add(id, remote[id]) in calls)
            && (forall id :: id in order && Rotated(remote, active, differs, id) ==> Remove(id) in calls)
            && (forall id :: id in order && Rotated(remote, active, differs, id) && removeOk(id) ==>
                  Add(id, remote[id]) in calls)
    decreases |order|
  {
    if order != [] {
      AddPassCovers(order[1..], remote, active, differs, removeOk);
      var head := AddStep(order[0], remote, active, differs, removeOk);
      var tail := AddPass(order[1..], remote, active, differs, removeOk);
      assert forall c :: c in head ==> c in head + tail;
      assert forall c :: c in tail ==> c in head + tail;
    }
  }

  /** So the second loop is silent exactly when no declared id is fresh or
      rotated. */
  lemma AddPassSilent(order: seq<Id>, remote: map<Id, User>, active: map<Id, User>,
                      differs: (User, User) -> bool, removeOk: Id -> bool)
    requires forall id :: id in order ==> id in remote
    ensures AddPass(order, remote, active, differs, removeOk) == []
            <==> forall id :: id in order ==> !Gains(remote, active, differs, id)
  {
    AddPassCovers(order, remote, active, differs, removeOk);
    var calls := AddPass(order, remote, active, differs, removeOk);
    if calls != [] {
      assert calls[0] in calls;
    }
  }

  /** `first` is immediately followed by `second` somewhere in `calls`. */
  predicate Adjacent(calls: seq<Call>, first: Call, second: Call) {
    exists k :: 0 <= k < |calls| - 1 && calls[k] == first && calls[k + 1] == second
  }

  /** An adjacent pair stays adjacent when calls are appended after it. */
  lemma AdjacentBefore(head: seq<Call>, tail: seq<Call>, first: Call, second: Call)
    requires Adjacent(head, first, second)
    ensures Adjacent(head + tail, first, second)
  {
    var k :| 0 <= k < |head| - 1 && head[k] == first && head[k + 1] == second;
    assert (head + tail)[k] == first && (head + tail)[k + 1] == second;
  }

  /** An adjacent pair stays adjacent when calls are put in front of it. */
  lemma AdjacentAfter(head: seq<Call>, tail: seq<Call>, first: Call, second: Call)
    requires Adjacent(tail, first, second)
    ensures Adjacent(head + tail, first, second)
  {
    var k :| 0 <= k < |tail| - 1 && tail[k] == first && tail[k + 1] == second;
    assert (head + tail)[|head| + k] == first && (head + tail)[|head| + k + 1] == second;
  }

  /** In the second loop a rotated id whose removal succeeded is re-added
      immediately after its removal, with the declared record. */
  lemma {:induction false} RotationIsRemoveThenAdd(order: seq<Id>, remote: map<Id, User>,
                                                   active: map<Id, User>,
                                                   differs: (User, User) -> bool,
                                                   removeOk: Id -> bool, id: Id)
    requires forall x :: x in order ==> x in remote
    requires id in order && Rotated(remote, active, differs, id) && removeOk(id)
    ensures Adjacent(AddPass(order, remote, active, differs, removeOk), Remove(id), Add(id, remote[id]))
    decreases |order|
  {
    var head := AddStep(order[0], remote, active, differs, removeOk);
    var tail := AddPass(order[1..], remote, active, differs, removeOk);
    if order[0] == id {
      assert head == [Remove(id), Add(id, remote[id])];
      assert Adjacent(head, Remove(id), Add(id, remote[id])) by {
        assert head[0] == Remove(id) && head[1] == Add(id, remote[id]);
      }
      AdjacentBefore(head, tail, Remove(id), Add(id, remote[id]));
    } else {
      assert id in order[1..];
      RotationIsRemoveThenAdd(order[1..], remote, active, differs, removeOk, id);
      AdjacentAfter(head, tail, Remove(id), Add(id, remote[id]));
    }
  }

  /** Both loops of one pass: the removals of the first loop, then the
      additions and replacements of the second. */
  function Diff(remote: Table, active: Table, differs: (User, User) -> bool,
                removeOk: Id -> bool): (calls: seq<Call>)
    requires Valid(remote) && Valid(active)
    ensures forall c :: c in calls ==> c.Remove? || c.Add?
  {
    RemovePass(active.order, remote.users)
    + AddPass(remote.order, remote.users, active.users, differs, removeOk)
  }

  /** The ids a pass removes. */
  function RemovedIds(calls: seq<Call>): set<Id> {
    set c | c in calls && c.Remove? :: c.id
  }

  /** The ids a pass adds. */
  function AddedIds(calls: seq<Call>): set<Id> {
    set c | c in calls && c.Add? :: c.id
  }

  lemma IdsOfAppend(a: seq<Call>, b: seq<Call>)
    ensures RemovedIds(a + b) == RemovedIds(a) + RemovedIds(b)
    ensures AddedIds(a + b) == AddedIds(a) + AddedIds(b)
  {
    assert forall c :: c in a + b <==> c in a || c in b;
  }

  /** The stale ids among `order`. */
  function StaleAmong(order: seq<Id>, remote: map<Id, User>): set<Id> {
    set x | x in order && Stale(remote, x)
  }

  /** The rotated ids among `order`. */
  function RotatedAmong(order: seq<Id>, remote: map<Id, User>, active: map<Id, User>,
                        differs: (User, User) -> bool): set<Id>
  {
    set x | x in order && Rotated(remote, active, differs, x)
  }

  /** The ids among `order` the second loop adds: the fresh ones and the
      rotated ones whose removal succeeded. */
  function ReaddedAmong(order: seq<Id>, remote: map<Id, User>, active: map<Id, User>,
                        differs: (User, User) -> bool, removeOk: Id -> bool): set<Id>
  {
    set x | x in order && (Fresh(remote, active, x) || (Rotated(remote, active, differs, x) && removeOk(x)))
  }

  /** The first loop removes exactly the stale ids and adds nothing. */
  lemma RemovePassIds(order: seq<Id>, remote: map<Id, User>)
    ensures RemovedIds(RemovePass(order, remote)) == StaleAmong(order, remote)
    ensures AddedIds(RemovePass(order, remote)) == {}
  {
    RemovePassCovers(order, remote);
  }

  /** The second loop removes exactly the rotated ids. */
  lemma AddPassRemovedIds(order: seq<Id>, remote: map<Id, User>, active: map<Id, User>,
                          differs: (User, User) -> bool, removeOk: Id -> bool)
    requires forall id :: id in order ==> id in remote
    ensures RemovedIds(AddPass(order, remote, active, differs, removeOk))
            == RotatedAmong(order, remote, active, differs)
  {
    AddPassCovers(order, remote, active, differs, removeOk);
  }

  /** The second loop adds exactly the fresh ids and the rotated ones whose
      removal succeeded. */
  lemma AddPassAddedIds(order: seq<Id>, remote: map<Id, User>, active: map<Id, User>,
                        differs: (User, User) -> bool, removeOk: Id -> bool)
    requires forall id :: id in order ==> id in remote
    ensures AddedIds(AddPass(order, remote, active, differs, removeOk))
            == ReaddedAmong(order, remote, active, differs, removeOk)
  {
    AddPassCovers(order, remote, active, differs, removeOk);
  }

  /** Over a valid table's order, the ids picked out are those of the plan. */
  lemma AmongIsPlan(remote: Table, active: Table, differs: (User, User) -> bool)
    requires Valid(remote) && Valid(active)
    ensures var p := PlanOf(remote.users, active.users, differs);
            && StaleAmong(active.order, remote.users) == p.toRemove
            && RotatedAmong(remote.order, remote.users, active.users, differs) == p.toReplace
            && GainsAmong(remote.order, remote.users, active.users, differs) == p.toAdd + p.toReplace
  {
  }

  /** The ids a pass removes are exactly the stale and the rotated ones. */
  lemma DiffRemovals(remote: Table, active: Table, differs: (User, User) -> bool,
                     removeOk: Id -> bool)
    requires Valid(remote) && Valid(active)
    ensures var p := PlanOf(remote.users, active.users, differs);
            RemovedIds(Diff(remote, active, differs, removeOk)) == p.toRemove + p.toReplace
  {
    var r := RemovePass(active.order, remote.users);
    var a := AddPass(remote.order, remote.users, active.users, differs, removeOk);
    IdsOfAppend(r, a);
    RemovePassIds(active.order, remote.users);
    AddPassRemovedIds(remote.order, remote.users, active.users, differs, removeOk);
    AmongIsPlan(remote, active, differs);
  }

  /** The ids a pass adds are exactly the fresh ones and the rotated ones
      whose removal succeeded, and every add carries the declared record. */
  lemma DiffAdditions(remote: Table, active: Table, differs: (User, User) -> bool,
                      removeOk: Id -> bool)
    requires Valid(remote) && Valid(active)
    ensures var calls := Diff(remote, active, differs, removeOk);
            var p := PlanOf(remote.users, active.users, differs);
            && AddedIds(calls) == p.toAdd + (set id | id in p.toReplace && removeOk(id))
            && forall c :: c in calls && c.Add? ==> c.id in remote.users && c.user == remote.users[c.id]
  {
    var r := RemovePass(active.order, remote.users);
    var a := AddPass(remote.order, remote.users, active.users, differs, removeOk);
    IdsOfAppend(r, a);
    RemovePassIds(active.order, remote.users);
    AddPassAddedIds(remote.order, remote.users, active.users, differs, removeOk);
    var p := PlanOf(remote.users, active.users, differs);
    assert ReaddedAmong(remote.order, remote.users, active.users, differs, removeOk)
           == p.toAdd + (set id | id in p.toReplace && removeOk(id));
  }

  /** A call the second loop makes for a gained id: an add, or the removal
      that starts the replacement of an id of `replaced`. */
  predicate Gaining(c: Call, replaced: set<Id>) {
    c.Add? || (c.Remove? && c.id in replaced)
  }

  /** When no call of `head` is gaining and no call of `tail` removes an id
      of `ids`, every removal of an id of `ids` precedes every gaining call. */
  lemma RemovalsFirst(head: seq<Call>, tail: seq<Call>, ids: set<Id>, replaced: set<Id>)
    requires forall c :: c in head ==> !Gaining(c, replaced)
    requires forall c :: c in tail ==> !(c.Remove? && c.id in ids)
    ensures var calls := head + tail;
            forall i, j ::
              (0 <= i < |calls| && 0 <= j < |calls| && calls[i].Remove?
               && calls[i].id in ids && Gaining(calls[j], replaced)) ==> i < j
  {
    var calls := head + tail;
    forall k | |head| <= k < |calls| ensures !(calls[k].Remove? && calls[k].id in ids) {
      assert calls[k] == tail[k - |head|];
    }
    forall k | 0 <= k < |head| ensures !Gaining(calls[k], replaced) {
      assert calls[k] == head[k];
    }
  }

  /** Every removal of a stale id comes before every add and before every
      removal that starts a replacement, and a rotated id whose removal
      succeeded is re-added right after that removal. */
  lemma DiffOrdering(remote: Table, active: Table, differs: (User, User) -> bool,
                     removeOk: Id -> bool)
    requires Valid(remote) && Valid(active)
    ensures var calls := Diff(remote, active, differs, removeOk);
            var p := PlanOf(remote.users, active.users, differs);
            && (forall i, j ::
                  (0 <= i < |calls| && 0 <= j < |calls| && calls[i].Remove?
                   && calls[i].id in p.toRemove
                   && (calls[j].Add? || (calls[j].Remove? && calls[j].id in p.toReplace))) ==> i < j)
            && (forall id :: id in p.toReplace && removeOk(id) ==>
                  Adjacent(calls, Remove(id), Add(id, remote.users[id])))
  {
    var r := RemovePass(active.order, remote.users);
    var a := AddPass(remote.order, remote.users, active.users, differs, removeOk);
    var p := PlanOf(remote.users, active.users, differs);
    RemovalsFirst(r, a, p.toRemove, p.toReplace);
    forall id | id in p.toReplace && removeOk(id)
      ensures Adjacent(r + a, Remove(id), Add(id, remote.users[id]))
    {
      RotationIsRemoveThenAdd(remote.order, remote.users, active.users, differs, removeOk, id);
      AdjacentAfter(r, a, Remove(id), Add(id, remote.users[id]));
    }
  }

  /** No id is removed twice in `calls`. */
  predicate RemovesOnce(calls: seq<Call>) {
    forall i, j :: 0 <= i < j < |calls| && calls[i].Remove? && calls[j].Remove? ==>
      calls[i].id != calls[j].id
  }

  /** No id is added twice in `calls`. */
  predicate AddsOnce(calls: seq<Call>) {
    forall i, j :: 0 <= i < j < |calls| && calls[i].Add? && calls[j].Add? ==>
      calls[i].id != calls[j].id
  }

  /** Two call lists that each remove an id at most once, and remove no id
      in common, remove each id at most once together. */
  lemma RemovesOnceAppend(a: seq<Call>, b: seq<Call>)
    requires RemovesOnce(a) && RemovesOnce(b)
    requires forall x, y :: x in a && y in b && x.Remove? && y.Remove? ==> x.id != y.id
    ensures RemovesOnce(a + b)
  {
    var all := a + b;
    forall i, j | 0 <= i < j < |all| && all[i].Remove? && all[j].Remove?
      ensures all[i].id != all[j].id
    {
      if j < |a| {
        assert all[i] == a[i] && all[j] == a[j];
      } else if i >= |a| {
        assert all[i] == b[i - |a|] && all[j] == b[j - |a|];
      } else {
        assert all[i] == a[i] && all[j] == b[j - |a|];
        assert all[i] in a && all[j] in b;
      }
    }
  }

  /** The same for adds. */
  lemma AddsOnceAppend(a: seq<Call>, b: seq<Call>)
    requires AddsOnce(a) && AddsOnce(b)
    requires forall x, y :: x in a && y in b && x.Add? && y.Add? ==> x.id != y.id
    ensures AddsOnce(a + b)
  {
    var all := a + b;
    forall i, j | 0 <= i < j < |all| && all[i].Add? && all[j].Add?
      ensures all[i].id != all[j].id
    {
      if j < |a| {
        assert all[i] == a[i] && all[j] == a[j];
      } else if i >= |a| {
        assert all[i] == b[i - |a|] && all[j] == b[j - |a|];
      } else {
        assert all[i] == a[i] && all[j] == b[j - |a|];
        assert all[i] in a && all[j] in b;
      }
    }
  }

  /** The first loop visits each active id once, so it removes each id at
      most once. */
  lemma {:induction false} RemovePassOnce(order: seq<Id>, remote: map<Id, User>)
    requires Distinct(order)
    ensures RemovesOnce(RemovePass(order, remote))
    decreases |order|
  {
    if order != [] {
      DistinctTail(order);
      RemovePassOnce(order[1..], remote);
      var head := if Stale(remote, order[0]) then [Remove(order[0])] else [];
      var tail := RemovePass(order[1..], remote);
      assert forall x :: x in head ==> x.id == order[0];
      RemovesOnceAppend(head, tail);
    }
  }

  /** One iteration of the second loop removes its id at most once and adds
      it at most once. */
  lemma AddStepOnce(id: Id, remote: map<Id, User>, active: map<Id, User>,
                    differs: (User, User) -> bool, removeOk: Id -> bool)
    requires id in remote
    ensures RemovesOnce(AddStep(id, remote, active, differs, removeOk))
    ensures AddsOnce(AddStep(id, remote, active, differs, removeOk))
  {
    var calls := AddStep(id, remote, active, differs, removeOk);
    if Fresh(remote, active, id) {
      ShortCallsOnce(calls);
    } else if Rotated(remote, active, differs, id) {
      assert calls == [Remove(id)] + (if removeOk(id) then [Add(id, remote[id])] else []);
      ShortCallsOnce(calls);
    } else {
      ShortCallsOnce(calls);
    }
  }

  /** A call list of at most one call, or a remove followed by an add,
      removes and adds each id at most once. */
  lemma ShortCallsOnce(calls: seq<Call>)
    requires |calls| <= 1 || (|calls| == 2 && calls[0].Remove? && calls[1].Add?)
    ensures RemovesOnce(calls) && AddsOnce(calls)
  {
  }

  /** The second loop visits each declared id once, so it removes each id
      at most once and adds each id at most once. */
  lemma {:induction false} AddPassOnce(order: seq<Id>, remote: map<Id, User>, active: map<Id, User>,
                                       differs: (User, User) -> bool, removeOk: Id -> bool)
    requires forall id :: id in order ==> id in remote
    requires Distinct(order)
    ensures RemovesOnce(AddPass(order, remote, active, differs, removeOk))
    ensures AddsOnce(AddPass(order, remote, active, differs, removeOk))
    decreases |order|
  {
    if order != [] {
      DistinctTail(order);
      AddPassOnce(order[1..], remote, active, differs, removeOk);
      AddStepOnce(order[0], remote, active, differs, removeOk);
      var head := AddStep(order[0], remote, active, differs, removeOk);
      var tail := AddPass(order[1..], remote, active, differs, removeOk);
      RemovesOnceAppend(head, tail);
      AddsOnceAppend(head, tail);
    }
  }

  /** A pass removes each id at most once and adds each id at most once:
      each loop visits each id once, and the first loop's stale ids are
      never the second loop's rotated ones. */
  lemma DiffOnce(remote: Table, active: Table, differs: (User, User) -> bool,
                 removeOk: Id -> bool)
    requires Valid(remote) && Valid(active)
    ensures RemovesOnce(Diff(remote, active, differs, removeOk))
    ensures AddsOnce(Diff(remote, active, differs, removeOk))
  {
    var r := RemovePass(active.order, remote.users);
    var a := AddPass(remote.order, remote.users, active.users, differs, removeOk);
    RemovePassOnce(active.order, remote.users);
    AddPassOnce(remote.order, remote.users, active.users, differs, removeOk);
    RemovesOnceAppend(r, a);
    AddsOnceAppend(r, a);
  }

  /** Once the active users are exactly the available declared users, a
      second pass issues nothing (for an inequality under which a record
      never differs from itself). */
  lemma DiffOfSyncedIsEmpty(remote: Table, active: Table, differs: (User, User) -> bool,
                            removeOk: Id -> bool)
    requires Valid(remote) && Valid(active)
    requires active.users == map id | id in AvailableIds(remote.users) :: remote.users[id]
    requires forall u :: !differs(u, u)
    ensures Diff(remote, active, differs, removeOk) == []
  {
    RemovePassSilent(active.order, remote.users);
    AddPassSilent(remote.order, remote.users, active.users, differs, removeOk);
    forall id | id in active.order ensures !Stale(remote.users, id) {
      assert id in AvailableIds(remote.users);
    }
    forall id | id in remote.order ensures !Gains(remote.users, active.users, differs, id) {
      if remote.users[id].available {
        assert id in AvailableIds(remote.users);
        assert active.users[id] == remote.users[id];
      }
    }
  }

  /** The active ids after the calls, when every call the manager gets
      succeeds. */
  function Effect(keys: set<Id>, calls: seq<Call>): set<Id>
    decreases |calls|
  {
    if calls == [] then keys
    else Effect(Apply(keys, calls[0]), calls[1..])
  }

  function Apply(keys: set<Id>, call: Call): set<Id> {
    match call
    case Remove(id) => keys - {id}
    case Add(id, _) => keys + {id}
    case _ => keys
  }

  lemma {:induction false} EffectAppend(keys: set<Id>, a: seq<Call>, b: seq<Call>)
    ensures Effect(keys, a + b) == Effect(Effect(keys, a), b)
    decreases |a|
  {
    if a == [] {
      assert a + b == b;
    } else {
      assert (a + b)[0] == a[0];
      assert (a + b)[1..] == a[1..] + b;
      EffectAppend(Apply(keys, a[0]), a[1..], b);
    }
  }

  /** The fresh or rotated ids among `order`. */
  function GainsAmong(order: seq<Id>, remote: map<Id, User>, active: map<Id, User>,
                      differs: (User, User) -> bool): set<Id>
  {
    set x | x in order && Gains(remote, active, differs, x)
  }

  lemma StaleAmongCons(order: seq<Id>, remote: map<Id, User>)
    requires order != []
    ensures StaleAmong(order, remote)
            == (if Stale(remote, order[0]) then {order[0]} else {}) + StaleAmong(order[1..], remote)
  {
    assert order == [order[0]] + order[1..];
  }

  lemma GainsAmongCons(order: seq<Id>, remote: map<Id, User>, active: map<Id, User>,
                       differs: (User, User) -> bool)
    requires order != []
    ensures GainsAmong(order, remote, active, differs)
            == (if Gains(remote, active, differs, order[0]) then {order[0]} else {})
               + GainsAmong(order[1..], remote, active, differs)
  {
    assert order == [order[0]] + order[1..];
  }

  lemma {:induction false} EffectOfRemovePass(keys: set<Id>, order: seq<Id>, remote: map<Id, User>)
    ensures Effect(keys, RemovePass(order, remote)) == keys - StaleAmong(order, remote)
    decreases |order|
  {
    if order != [] {
      var id := order[0];
      var head := if Stale(remote, id) then [Remove(id)] else [];
      var next := if Stale(remote, id) then keys - {id} else keys;
      EffectAppend(keys, head, RemovePass(order[1..], remote));
      assert Effect(keys, head) == next by {
        if Stale(remote, id) {
          assert head[1..] == [];
        }
      }
      EffectOfRemovePass(next, order[1..], remote);
      StaleAmongCons(order, remote);
    }
  }

  lemma EffectOfOne(keys: set<Id>, c: Call)
    ensures Effect(keys, [c]) == Apply(keys, c)
  {
    assert [c][1..] == [];
  }

  /** Removing an id and adding it back leaves it active. */
  lemma EffectOfReplace(keys: set<Id>, id: Id, u: User)
    ensures Effect(keys, [Remove(id), Add(id, u)]) == keys + {id}
  {
    EffectAppend(keys, [Remove(id)], [Add(id, u)]);
    assert [Remove(id)] + [Add(id, u)] == [Remove(id), Add(id, u)];
    EffectOfOne(keys, Remove(id));
    EffectOfOne(keys - {id}, Add(id, u));
  }

  /** The effect of one iteration of the second loop, when every remove
      returns true and every add takes effect. */
  lemma EffectOfAddStep(keys: set<Id>, id: Id, remote: map<Id, User>, active: map<Id, User>,
                        differs: (User, User) -> bool, removeOk: Id -> bool)
    requires id in remote && removeOk(id)
    ensures Effect(keys, AddStep(id, remote, active, differs, removeOk))
            == if Gains(remote, active, differs, id) then keys + {id} else keys
  {
    if Rotated(remote, active, differs, id) {
      assert AddStep(id, remote, active, differs, removeOk) == [Remove(id), Add(id, remote[id])];
      EffectOfReplace(keys, id, remote[id]);
    } else if Fresh(remote, active, id) {
      EffectOfOne(keys, Add(id, remote[id]));
    }
  }

  lemma {:induction false} EffectOfAddPass(keys: set<Id>, order: seq<Id>, remote: map<Id, User>,
                                           active: map<Id, User>, differs: (User, User) -> bool,
                                           removeOk: Id -> bool)
    requires forall id :: id in order ==> id in remote
    requires forall id :: removeOk(id)
    ensures Effect(keys, AddPass(order, remote, active, differs, removeOk))
            == keys + GainsAmong(order, remote, active, differs)
    decreases |order|
  {
    if order != [] {
      var id := order[0];
      var head := AddStep(id, remote, active, differs, removeOk);
      var next := if Gains(remote, active, differs, id) then keys + {id} else keys;
      EffectAppend(keys, head, AddPass(order[1..], remote, active, differs, removeOk));
      EffectOfAddStep(keys, id, remote, active, differs, removeOk);
      EffectOfAddPass(next, order[1..], remote, active, differs, removeOk);
      GainsAmongCons(order, remote, active, differs);
    }
  }

  /** The active ids that are not stale, together with the declared ids that
      are fresh or rotated, are exactly the available ids. */
  lemma KeptAndGainedAreAvailable(remote: Table, active: Table, differs: (User, User) -> bool)
    requires Valid(remote) && Valid(active)
    ensures (active.users.Keys - StaleAmong(active.order, remote.users))
            + GainsAmong(remote.order, remote.users, active.users, differs)
            == AvailableIds(remote.users)
  {
    var kept := active.users.Keys - StaleAmong(active.order, remote.users);
    var gained := GainsAmong(remote.order, remote.users, active.users, differs);
    forall id | id in AvailableIds(remote.users) ensures id in kept + gained {
      assert id in remote.order;
    }
  }

  /** When every remove and add succeeds, one pass leaves exactly the
      available declared users active. */
  lemma DiffConverges(remote: Table, active: Table, differs: (User, User) -> bool,
                      removeOk: Id -> bool)
    requires Valid(remote) && Valid(active)
    requires forall id :: removeOk(id)
    ensures Effect(active.users.Keys, Diff(remote, active, differs, removeOk))
            == AvailableIds(remote.users)
  {
    var r := RemovePass(active.order, remote.users);
    var a := AddPass(remote.order, remote.users, active.users, differs, removeOk);
    EffectAppend(active.users.Keys, r, a);
    EffectOfRemovePass(active.users.Keys, active.order, remote.users);
    var kept := active.users.Keys - StaleAmong(active.order, remote.users);
    EffectOfAddPass(kept, remote.order, remote.users, active.users, differs, removeOk);
    KeptAndGainedAreAvailable(remote, active, differs);
  }

  /** The agent's own state between passes: the node info it last saw, the
      manager's change flag, and the first-run flag. */
  datatype Engine = Engine(nodeInfo: NodeInfo, ifUserChange: bool, firstTimeStart: bool)

  /** The state right after start-up: the first-run flag is set, and the
      change flag is whatever the freshly built manager holds. */
  function Start(info: NodeInfo, managerFlag: bool): (e: Engine)
    ensures e.firstTimeStart && e.nodeInfo == info
  {
    Engine(info, managerFlag, true)
  }

  /** The write-and-restart sequence that ends a pass when a flag is set. */
  const Flush: seq<Call> := [UpdateConfig, WriteConfig, Restart]

  datatype Cycle = Cycle(engine: Engine, calls: seq<Call>)

  /** Adopt the node info just fetched; a changed one is pushed to the
      manager and raises the change flag. */
  function Refresh(e: Engine, info: NodeInfo): (c: Cycle)
    ensures c.engine.nodeInfo == info && c.engine.firstTimeStart == e.firstTimeStart
    ensures c.engine.ifUserChange == (e.ifUserChange || info != e.nodeInfo)
    ensures info != e.nodeInfo ==> c.calls == [SetNodeInfo(info)]
    ensures info == e.nodeInfo ==> c.calls == []
  {
    if e.nodeInfo != info then Cycle(Engine(info, true, e.firstTimeStart), [SetNodeInfo(info)])
    else Cycle(e, [])
  }

  /** `calls` ends with `tail`. */
  predicate EndsWith(calls: seq<Call>, tail: seq<Call>) {
    |tail| <= |calls| && calls[|calls| - |tail|..] == tail
  }

  /** End a pass whose calls so far are `done`: write the configuration and
      restart when a flag is set, and leave both flags clear. The calls made
      so far are kept in front, and the only calls added are those of the
      write-and-restart sequence. */
  function Settle(e: Engine, managerSets: bool, done: seq<Call>): (c: Cycle)
    requires Restart !in done
    ensures c.engine == Engine(e.nodeInfo, false, false)
    ensures Restart in c.calls <==> e.ifUserChange || managerSets || e.firstTimeStart
    ensures Restart in c.calls ==> EndsWith(c.calls, Flush)
    ensures c.calls == done + (if Restart in c.calls then Flush else [])
  {
    var dirty := e.ifUserChange || managerSets || e.firstTimeStart;
    var calls := done + (if dirty then Flush else []);
    assert dirty ==> calls[|calls| - 1] == Restart;
    assert dirty ==> calls[|done|..] == Flush;
    Cycle(Engine(e.nodeInfo, false, false), calls)
  }

  /** A pass that got both answers from the panel: `info`, and declared
      users whose diff issued the calls `diff`. It ends with both flags
      clear and writes and restarts exactly when a flag was set: the change
      flag before the pass, a node-info change, the manager's own change, or
      the first run; the restart is then the last call. A changed node info
      is pushed to the manager before anything else, and an unchanged one is
      not pushed. The calls are that push, then the diff's calls in order,
      then the write-and-restart sequence, and nothing else. */
  function FullPass(e: Engine, info: NodeInfo, diff: seq<Call>, managerSets: bool): (c: Cycle)
    requires forall x :: x in diff ==> x.Remove? || x.Add?
    ensures c.engine == Engine(info, false, false)
    ensures Restart in c.calls <==>
      e.ifUserChange || e.firstTimeStart || managerSets || info != e.nodeInfo
    ensures Restart in c.calls ==> EndsWith(c.calls, Flush)
    ensures info != e.nodeInfo ==> |c.calls| > 0 && c.calls[0] == SetNodeInfo(info)
    ensures info == e.nodeInfo ==> forall x :: x in c.calls ==> !x.SetNodeInfo?
    ensures c.calls == (if info != e.nodeInfo then [SetNodeInfo(info)] else []) + diff
                       + (if Restart in c.calls then Flush else [])
  {
    var refreshed := Refresh(e, info);
    var done := refreshed.calls + diff;
    assert Restart !in done;
    assert info != e.nodeInfo ==> done[0] == SetNodeInfo(info);
    assert info == e.nodeInfo ==> done == diff;
    Settle(refreshed.engine, managerSets, done)
  }

  /** One run of `update_manager`. `fetchedInfo` is the node info the panel
      returned (`None`: the request raised, and the pass stops before
      touching anything); `fetchedUsers` is the declared users (`None`: that
      request raised after a node-info change was already recorded, which
      stays recorded for the next pass); `active` is what the manager
      reports as active. */
  function UpdateManager(e: Engine, fetchedInfo: Option<NodeInfo>, fetchedUsers: Option<Table>,
                         active: Table, differs: (User, User) -> bool, removeOk: Id -> bool,
                         managerSets: bool): (c: Cycle)
    requires fetchedUsers.Some? ==> Valid(fetchedUsers.value)
    requires Valid(active)
    ensures fetchedInfo.None? ==> c == Cycle(e, [])
    ensures fetchedInfo.Some? ==> c.engine.nodeInfo == fetchedInfo.value
    ensures fetchedInfo.Some? && fetchedUsers.None? ==>
      && c.engine.ifUserChange == (e.ifUserChange || fetchedInfo.value != e.nodeInfo)
      && c.engine.firstTimeStart == e.firstTimeStart
      && c.calls == (if fetchedInfo.value != e.nodeInfo then [SetNodeInfo(fetchedInfo.value)] else [])
      && Restart !in c.calls
    ensures fetchedInfo.Some? && fetchedUsers.Some? ==>
      && !c.engine.ifUserChange && !c.engine.firstTimeStart
      && (Restart in c.calls <==>
            e.ifUserChange || e.firstTimeStart || managerSets || fetchedInfo.value != e.nodeInfo)
      && c.calls == (if fetchedInfo.value != e.nodeInfo then [SetNodeInfo(fetchedInfo.value)] else [])
                    + Diff(fetchedUsers.value, active, differs, removeOk)
                    + (if Restart in c.calls then Flush else [])
  {
    match fetchedInfo
    case None => Cycle(e, [])
    case Some(info) =>
      match fetchedUsers
      case None => Refresh(e, info)
      case Some(remote) => FullPass(e, info, Diff(remote, active, differs, removeOk), managerSets)
  }

  /** Calls that are neither removes nor adds around `diff` change neither
      the removed nor the added ids. */
  lemma FramedIds(pre: seq<Call>, diff: seq<Call>, post: seq<Call>)
    requires forall c :: c in pre ==> !c.Remove? && !c.Add?
    requires forall c :: c in post ==> !c.Remove? && !c.Add?
    ensures RemovedIds(pre + diff + post) == RemovedIds(diff)
    ensures AddedIds(pre + diff + post) == AddedIds(diff)
  {
    assert forall c :: c in pre + diff + post <==> c in pre || c in diff || c in post;
  }

  /** A pass that gets both answers removes and adds exactly what its diff
      removes and adds. */
  lemma FullPassIds(e: Engine, info: NodeInfo, diff: seq<Call>, managerSets: bool)
    requires forall x :: x in diff ==> x.Remove? || x.Add?
    ensures var c := FullPass(e, info, diff, managerSets);
            RemovedIds(c.calls) == RemovedIds(diff) && AddedIds(c.calls) == AddedIds(diff)
  {
    var c := FullPass(e, info, diff, managerSets);
    var pre: seq<Call> := if info != e.nodeInfo then [SetNodeInfo(info)] else [];
    var post := if Restart in c.calls then Flush else [];
    FramedIds(pre, diff, post);
  }

  /** A pass that gets both answers removes exactly the stale and rotated
      ids, and adds exactly the fresh ids and the rotated ids whose removal
      succeeded. */
  lemma PassFollowsPlan(e: Engine, info: NodeInfo, remote: Table, active: Table,
                        differs: (User, User) -> bool, removeOk: Id -> bool, managerSets: bool)
    requires Valid(remote) && Valid(active)
    ensures var c := UpdateManager(e, Some(info), Some(remote), active, differs, removeOk, managerSets);
            var p := PlanOf(remote.users, active.users, differs);
            && RemovedIds(c.calls) == p.toRemove + p.toReplace
            && AddedIds(c.calls) == p.toAdd + (set id | id in p.toReplace && removeOk(id))
  {
    FullPassIds(e, info, Diff(remote, active, differs, removeOk), managerSets);
    DiffRemovals(remote, active, differs, removeOk);
    DiffAdditions(remote, active, differs, removeOk);
  }

  /** The first pass that reaches the panel writes the configuration and
      restarts the proxy, whatever the diff finds. */
  lemma FirstPassFlushes(info: NodeInfo, managerFlag: bool, fetched: NodeInfo, remote: Table,
                         active: Table, differs: (User, User) -> bool, removeOk: Id -> bool,
                         managerSets: bool)
    requires Valid(remote) && Valid(active)
    ensures var c := UpdateManager(Start(info, managerFlag), Some(fetched), Some(remote),
                                   active, differs, removeOk, managerSets);
            Restart in c.calls && !c.engine.firstTimeStart
  {
  }

  /** A node-info change recorded by a pass whose user request failed is not
      lost: the next pass that gets both answers writes and restarts. */
  lemma NodeInfoChangeSurvivesFailedFetch(e: Engine, info1: NodeInfo, info2: NodeInfo,
                                          remote: Table, active1: Table, active2: Table,
                                          differs: (User, User) -> bool, removeOk: Id -> bool,
                                          managerSets1: bool, managerSets2: bool)
    requires Valid(remote) && Valid(active1) && Valid(active2)
    requires info1 != e.nodeInfo
    ensures var c1 := UpdateManager(e, Some(info1), None, active1, differs, removeOk, managerSets1);
            var c2 := UpdateManager(c1.engine, Some(info2), Some(remote), active2, differs, removeOk,
                                    managerSets2);
            Restart in c2.calls
  {
  }

  /** A pass after a completed one, with unchanged node info, no change
      raised by the manager and the proxy already in sync, makes no call at
      all and leaves the state as it was. */
  lemma QuietPassIsSilent(e: Engine, remote: Table, active: Table, differs: (User, User) -> bool,
                          removeOk: Id -> bool)
    requires Valid(remote) && Valid(active)
    requires !e.ifUserChange && !e.firstTimeStart
    requires active.users == map id | id in AvailableIds(remote.users) :: remote.users[id]
    requires forall u :: !differs(u, u)
    ensures UpdateManager(e, Some(e.nodeInfo), Some(remote), active, differs, removeOk, false)
            == Cycle(e, [])
  {
    DiffOfSyncedIsEmpty(remote, active, differs, removeOk);
  }
}

=== FILE: schedule.dfy ===
/** The periods `Munager.run` hands to its four periodic callbacks: each is
    read from the configuration in seconds, with a default when the key is
    absent, and converted to milliseconds. */
module Schedule {

  /** The configuration, as far as the periods go: key to seconds. */
  type Config = map<string, int>

  /** `_second_to_msecond`: seconds to milliseconds. The result is a whole
      number of seconds, and the seconds come back by dividing. */
  function Millis(seconds: int): (ms: int)
    ensures ms % 1000 == 0 && ms / 1000 == seconds
  {
    seconds * 1000
  }

  /** `config.get(key, default)`. */
  function Setting(config: Config, key: string, default: int): int {
    if key in config then config[key] else default
  }

  const UpdatePortKey: string := "update_port_period"
  const UploadThroughputKey: string := "upload_throughput_period"
  const UploadServerloadKey: string := "upload_serverload_period"
  const UploadSpeedtestKey: string := "upload_speedtest_period"

  /** The callback periods in milliseconds: the reconciliation pass, the
      traffic upload, the system-load upload and the speed test. */
  datatype Periods = Periods(updatePort: int, uploadThroughput: int,
                             uploadServerload: int, uploadSpeedtest: int)

  /** The periods `run` schedules for `config`: each period is its own key's
      setting, or its default, in milliseconds. */
  function PeriodsOf(config: Config): (p: Periods)
    ensures p.updatePort % 1000 == 0 && p.uploadThroughput % 1000 == 0
    ensures p.uploadServerload % 1000 == 0 && p.uploadSpeedtest % 1000 == 0
    ensures p.updatePort / 1000 == Setting(config, UpdatePortKey, 60)
    ensures p.uploadThroughput / 1000 == Setting(config, UploadThroughputKey, 360)
    ensures p.uploadServerload / 1000 == Setting(config, UploadServerloadKey, 60)
    ensures p.uploadSpeedtest / 1000 == Setting(config, UploadSpeedtestKey, 21600)
  {
    Periods(Millis(Setting(config, UpdatePortKey, 60)),
            Millis(Setting(config, UploadThroughputKey, 360)),
            Millis(Setting(config, UploadServerloadKey, 60)),
            Millis(Setting(config, UploadSpeedtestKey, 21600)))
  }

  /** With none of the keys set: a pass every minute, a traffic upload every
      six minutes, a load upload every minute, a speed test every six hours. */
  lemma DefaultPeriods(config: Config)
    requires UpdatePortKey !in config && UploadThroughputKey !in config
    requires UploadServerloadKey !in config && UploadSpeedtestKey !in config
    ensures PeriodsOf(config) == Periods(60000, 360000, 60000, 21600000)
  {
  }

  /** Setting one key changes its own period, to that many seconds, and no
      other. */
  lemma SettingOneKey(config: Config, key: string, seconds: int)
    ensures var before := PeriodsOf(config);
            var after := PeriodsOf(config[key := seconds]);
            && (key != UpdatePortKey ==> after.updatePort == before.updatePort)
            && (key != UploadThroughputKey ==> after.uploadThroughput == before.uploadThroughput)
            && (key != UploadServerloadKey ==> after.uploadServerload == before.uploadServerload)
            && (key != UploadSpeedtestKey ==> after.uploadSpeedtest == before.uploadSpeedtest)
            && (key == UpdatePortKey ==> after.updatePort == Millis(seconds))
            && (key == UploadThroughputKey ==> after.uploadThroughput == Millis(seconds))
            && (key == UploadServerloadKey ==> after.uploadServerload == Millis(seconds))
            && (key == UploadSpeedtestKey ==> after.uploadSpeedtest == Millis(seconds))
  {
  }
}

=== FILE: traffic.dfy ===
/** The traffic accountant (`Munager.upload_throughput`): for every active
    user, compare the live cumulative counters with the last accounted
    baseline, absorb a counter that went backwards, report a forward move to
    the panel and advance the baseline only when the panel acknowledges it,
    and count the users whose counters moved.

    What the manager keeps behind `get_last_traffic` / `set_current_traffic`
    is modelled as a ledger map; how it answers for a user it has never
    stored is defined in V2Manager, which this model leaves abstract, so
    that answer is the parameter `fallback`.
    The panel's answer to each upload is the parameter `reply`. */
module Traffic {
  import opened Users

  /** A pair of cumulative byte counters, or the difference of two pairs.
      Components are unbounded integers: a difference may be negative in
      one component. */
  datatype Counters = Counters(upload: int, download: int)

  /** The one quantity the accountant classifies on. */
  function Total(c: Counters): int {
    c.upload + c.download
  }

  function Plus(a: Counters, b: Counters): Counters {
    Counters(a.upload + b.upload, a.download + b.download)
  }

  function Minus(a: Counters, b: Counters): Counters {
    Counters(a.upload - b.upload, a.download - b.download)
  }

  /** The live counters of an active user (`user.get_throughput()`). */
  function Live(u: User): Counters {
    Counters(u.upload, u.download)
  }

  /** The panel's answer to one upload: a truthy result, a falsy result, or
      an exception (caught and logged). */
  datatype Reply = Acked | Refused | Raised

  /** What the accountant does for one user: the delta it uploads, if any;
      the counters it stores as the new baseline, if any; and whether the
      user counts as online. */
  datatype UserStep = UserStep(sent: Option<Counters>, store: Option<Counters>, online: bool)

  /** One user's turn. The user is online exactly when the total moved.
      A delta is sent exactly when the total grew, and it is what carries
      the baseline to the live counters. Only the live counters are ever
      stored, and they are stored exactly when the total shrank (an anomaly)
      or when it grew and the panel acknowledged the upload. */
  function StepUser(base: Counters, live: Counters, reply: Reply): (s: UserStep)
    ensures s.online <==> Total(live) != Total(base)
    ensures s.sent.Some? <==> Total(live) > Total(base)
    ensures s.sent.Some? ==> Plus(base, s.sent.value) == live && Total(s.sent.value) > 0
    ensures s.store.Some? ==> s.store.value == live
    ensures s.store.Some? <==>
      Total(live) < Total(base) || (Total(live) > Total(base) && reply == Acked)
  {
    if Total(live) < Total(base) then
      UserStep(None, Some(live), true)
    else if Total(live) > Total(base) then
      UserStep(Some(Minus(live, base)), if reply == Acked then Some(live) else None, true)
    else
      UserStep(None, None, false)
  }

  /** The baseline after a step. */
  function NextBaseline(base: Counters, s: UserStep): Counters {
    s.store.GetOr(base)
  }

  /** The baselines the manager keeps, by prefixed id. */
  type Ledger = map<Id, Counters>

  /** The baseline `get_last_traffic` answers for `id`. */
  function Baseline(ledger: Ledger, fallback: Id -> Counters, id: Id): Counters {
    if id in ledger then ledger[id] else fallback(id)
  }

  /** The two ledgers hold the same entry, or no entry, for `id`. */
  predicate Agrees(a: Ledger, b: Ledger, id: Id) {
    (id in a <==> id in b) && (id in a ==> a[id] == b[id])
  }

  /** The step `id` takes against `ledger`. */
  function StepOf(users: map<Id, User>, ledger: Ledger, fallback: Id -> Counters,
                  reply: Id -> Reply, id: Id): UserStep
    requires id in users
  {
    StepUser(Baseline(ledger, fallback, id), Live(users[id]), reply(id))
  }

  /** One upload of a delta, keyed by prefixed id. */
  datatype Upload = Upload(id: Id, delta: Counters)

  /** The outcome of one run: the ledger after it, the uploads attempted in
      order, and the online count posted at the end. */
  datatype Report = Report(ledger: Ledger, uploads: seq<Upload>, online: nat)

  /** The ledger after `set_current_traffic` ran for `id` if the step asks
      for it. */
  function Write(ledger: Ledger, id: Id, s: UserStep): Ledger {
    match s.store
    case Some(c) => ledger[id := c]
    case None => ledger
  }

  /** Writing one id's step touches no other entry, and so changes no other
      id's step. */
  lemma WriteIsolated(users: map<Id, User>, ledger: Ledger, fallback: Id -> Counters,
                      reply: Id -> Reply, id: Id, s: UserStep)
    ensures forall x :: x != id ==> Agrees(Write(ledger, id, s), ledger, x)
    ensures forall x :: x != id && x in users ==>
      StepOf(users, Write(ledger, id, s), fallback, reply, x) == StepOf(users, ledger, fallback, reply, x)
  {
    var written := Write(ledger, id, s);
    forall x | x != id && x in users
      ensures StepOf(users, written, fallback, reply, x) == StepOf(users, ledger, fallback, reply, x)
    {
      assert Baseline(written, fallback, x) == Baseline(ledger, fallback, x);
    }
  }

  /** The ledger facts of one more iteration in front of a run over the
      remaining ids. */
  lemma LedgerStep(order: seq<Id>, users: map<Id, User>, ledger: Ledger, fallback: Id -> Counters,
                   reply: Id -> Reply, final: Ledger)
    requires order != [] && Distinct(order)
    requires forall id :: id in order ==> id in users
    requires var written := Write(ledger, order[0], StepOf(users, ledger, fallback, reply, order[0]));
             && (forall x :: x !in order[1..] ==> Agrees(final, written, x))
             && (forall x :: x in order[1..] ==>
                   Agrees(final, Write(written, x, StepOf(users, written, fallback, reply, x)), x))
    ensures forall x :: x !in order ==> Agrees(final, ledger, x)
    ensures forall x :: x in order ==>
      Agrees(final, Write(ledger, x, StepOf(users, ledger, fallback, reply, x)), x)
  {
    var id := order[0];
    var written := Write(ledger, id, StepOf(users, ledger, fallback, reply, id));
    DistinctTail(order);
    WriteIsolated(users, ledger, fallback, reply, id, StepOf(users, ledger, fallback, reply, id));
    forall x | x in order
      ensures Agrees(final, Write(ledger, x, StepOf(users, ledger, fallback, reply, x)), x)
    {
      if x != id {
        assert x in order[1..];
        assert Agrees(final, Write(written, x, StepOf(users, written, fallback, reply, x)), x);
      }
    }
    forall x | x !in order ensures Agrees(final, ledger, x) {
      assert x !in order[1..] && x != id;
    }
  }

  /** At most one upload for `id` in front of uploads for other ids, each
      for a different id, still has each upload for a different id. */
  lemma PrependUpload(head: seq<Upload>, id: Id, rest: seq<Upload>)
    requires |head| <= 1 && forall u :: u in head ==> u.id == id
    requires forall u :: u in rest ==> u.id != id
    requires forall i, j :: 0 <= i < j < |rest| ==> rest[i].id != rest[j].id
    ensures var all := head + rest;
            forall i, j :: 0 <= i < j < |all| ==> all[i].id != all[j].id
  {
    var all := head + rest;
    forall i, j | 0 <= i < j < |all| ensures all[i].id != all[j].id {
      assert all[j] == rest[j - |head|];
      if i < |head| {
        assert all[i] in head;
        assert all[j] in rest;
      } else {
        assert all[i] == rest[i - |head|];
      }
    }
  }

  /** The loop of `upload_throughput` over the ids in `order`. Ids outside
      `order` keep their ledger entry; each id in `order` ends with the
      entry its own step writes, computed against the ledger as it was
      before the run. Every upload is the delta of its id's step, and every
      id whose total grew has its delta uploaded, once. */
  function AccountFrom(order: seq<Id>, users: map<Id, User>, ledger: Ledger,
                       fallback: Id -> Counters, reply: Id -> Reply): (r: Report)
    requires forall id :: id in order ==> id in users
    requires Distinct(order)
    ensures forall id :: id !in order ==> Agrees(r.ledger, ledger, id)
    ensures forall id :: id in order ==>
      Agrees(r.ledger, Write(ledger, id, StepOf(users, ledger, fallback, reply, id)), id)
    ensures forall u :: u in r.uploads ==>
      u.id in order && StepOf(users, ledger, fallback, reply, u.id).sent == Some(u.delta)
    ensures forall id :: id in order && StepOf(users, ledger, fallback, reply, id).sent.Some? ==>
      Upload(id, StepOf(users, ledger, fallback, reply, id).sent.value) in r.uploads
    ensures forall i, j :: 0 <= i < j < |r.uploads| ==> r.uploads[i].id != r.uploads[j].id
    decreases |order|
  {
    if order == [] then Report(ledger, [], 0)
    else
      var id := order[0];
      var s := StepOf(users, ledger, fallback, reply, id);
      var written := Write(ledger, id, s);
      DistinctTail(order);
      WriteIsolated(users, ledger, fallback, reply, id, s);
      var rest := AccountFrom(order[1..], users, written, fallback, reply);
      LedgerStep(order, users, ledger, fallback, reply, rest.ledger);
      var head := if s.sent.Some? then [Upload(id, s.sent.value)] else [];
      PrependUpload(head, id, rest.uploads);
      Report(rest.ledger, head + rest.uploads, (if s.online then 1 else 0) + rest.online)
  }

  /** The ids among `order` whose total moved since their baseline. */
  function MovedAmong(order: seq<Id>, users: map<Id, User>, ledger: Ledger,
                      fallback: Id -> Counters): set<Id>
  {
    set id | id in order && id in users
                && Total(Live(users[id])) != Total(Baseline(ledger, fallback, id))
  }

  lemma MovedAmongCons(order: seq<Id>, users: map<Id, User>, ledger: Ledger,
                       written: Ledger, fallback: Id -> Counters)
    requires order != [] && order[0] !in order[1..]
    requires forall x :: x != order[0] ==> Agrees(written, ledger, x)
    ensures var id := order[0];
            MovedAmong(order, users, ledger, fallback)
              == (if id in users && Total(Live(users[id])) != Total(Baseline(ledger, fallback, id))
                  then {id} else {})
                 + MovedAmong(order[1..], users, written, fallback)
  {
    var id := order[0];
    var whole := MovedAmong(order, users, ledger, fallback);
    var rest := MovedAmong(order[1..], users, written, fallback);
    var first := if id in users && Total(Live(users[id])) != Total(Baseline(ledger, fallback, id))
                 then {id} else {};
    forall x | x in whole ensures x in first + rest {
      if x != id {
        assert x in order[1..] by {
          assert order == [order[0]] + order[1..];
        }
        assert Agrees(written, ledger, x);
        assert Baseline(written, fallback, x) == Baseline(ledger, fallback, x);
      }
    }
    forall x | x in first + rest ensures x in whole {
      if x in rest {
        assert x != id;
        assert Agrees(written, ledger, x);
        assert Baseline(written, fallback, x) == Baseline(ledger, fallback, x);
      }
    }
  }

  /** The online count is the number of users whose total moved, whatever
      the panel answered to the uploads. */
  lemma {:induction false} OnlineCountsMovedUsers(order: seq<Id>, users: map<Id, User>,
                                                  ledger: Ledger, fallback: Id -> Counters,
                                                  reply: Id -> Reply)
    requires forall id :: id in order ==> id in users
    requires Distinct(order)
    ensures AccountFrom(order, users, ledger, fallback, reply).online
            == |MovedAmong(order, users, ledger, fallback)|
    decreases |order|
  {
    if order != [] {
      var id := order[0];
      var written := Write(ledger, id, StepOf(users, ledger, fallback, reply, id));
      DistinctTail(order);
      assert forall x :: x != id ==> Agrees(written, ledger, x);
      OnlineCountsMovedUsers(order[1..], users, written, fallback, reply);
      MovedAmongCons(order, users, ledger, written, fallback);
      var rest := MovedAmong(order[1..], users, written, fallback);
      assert id !in rest;
    }
  }

  /** The users of `active` whose total moved since their baseline. */
  function MovedIds(active: Table, ledger: Ledger, fallback: Id -> Counters): set<Id> {
    set id | id in active.users
                && Total(Live(active.users[id])) != Total(Baseline(ledger, fallback, id))
  }

  /** One run of `upload_throughput` over the active users. Users that are
      not active keep their ledger entry; each active user ends with the
      baseline its step gives it; the uploads are exactly the deltas of the
      users whose total grew, one per user; and the posted online count is
      the number of users whose total moved. */
  function Account(active: Table, ledger: Ledger, fallback: Id -> Counters,
                   reply: Id -> Reply): (r: Report)
    requires Valid(active)
    ensures forall id :: id !in active.users ==> Agrees(r.ledger, ledger, id)
    ensures forall id :: id in active.users ==>
      Agrees(r.ledger, Write(ledger, id, StepOf(active.users, ledger, fallback, reply, id)), id)
    ensures forall u :: u in r.uploads ==>
      u.id in active.users
      && Total(Live(active.users[u.id])) > Total(Baseline(ledger, fallback, u.id))
      && u.delta == Minus(Live(active.users[u.id]), Baseline(ledger, fallback, u.id))
    ensures forall id :: id in active.users
                         && Total(Live(active.users[id])) > Total(Baseline(ledger, fallback, id)) ==>
      Upload(id, Minus(Live(active.users[id]), Baseline(ledger, fallback, id))) in r.uploads
    ensures forall i, j :: 0 <= i < j < |r.uploads| ==> r.uploads[i].id != r.uploads[j].id
    ensures r.online == |MovedIds(active, ledger, fallback)|
  {
    OnlineCountsMovedUsers(active.order, active.users, ledger, fallback, reply);
    assert MovedAmong(active.order, active.users, ledger, fallback) == MovedIds(active, ledger, fallback);
    AccountFrom(active.order, active.users, ledger, fallback, reply)
  }

  /** The count posted at the end does not depend on how the uploads fared. */
  lemma OnlineIgnoresReplies(active: Table, ledger: Ledger, fallback: Id -> Counters,
                             reply1: Id -> Reply, reply2: Id -> Reply)
    requires Valid(active)
    ensures Account(active, ledger, fallback, reply1).online
            == Account(active, ledger, fallback, reply2).online
  {
  }

  /** A total that went backwards is absorbed: nothing is uploaded for that
      user, the user still counts as online, the live counters become its
      stored baseline, and the next run with the same counters neither
      uploads for it nor counts it. */
  lemma AnomalyIsAbsorbed(active: Table, ledger: Ledger, fallback: Id -> Counters,
                          reply1: Id -> Reply, reply2: Id -> Reply, id: Id)
    requires Valid(active) && id in active.users
    requires Total(Live(active.users[id])) < Total(Baseline(ledger, fallback, id))
    ensures var r1 := Account(active, ledger, fallback, reply1);
            var r2 := Account(active, r1.ledger, fallback, reply2);
            && (forall u :: u in r1.uploads ==> u.id != id)
            && id in MovedIds(active, ledger, fallback)
            && id in r1.ledger && r1.ledger[id] == Live(active.users[id])
            && (forall u :: u in r2.uploads ==> u.id != id)
            && id !in MovedIds(active, r1.ledger, fallback)
  {
  }

  /** A delta the panel did not acknowledge is not lost: the baseline stays
      where it was, so the next run uploads the delta from that same
      baseline to whatever the counters then read (the identical delta when
      they have not moved). */
  lemma RetryResendsFromSameBaseline(active: Table, next: Table, ledger: Ledger,
                                     fallback: Id -> Counters, reply1: Id -> Reply,
                                     reply2: Id -> Reply, id: Id)
    requires Valid(active) && Valid(next)
    requires id in active.users && id in next.users
    requires Total(Live(active.users[id])) > Total(Baseline(ledger, fallback, id))
    requires reply1(id) != Acked
    requires Total(Live(next.users[id])) > Total(Baseline(ledger, fallback, id))
    ensures var r1 := Account(active, ledger, fallback, reply1);
            var r2 := Account(next, r1.ledger, fallback, reply2);
            && Baseline(r1.ledger, fallback, id) == Baseline(ledger, fallback, id)
            && Upload(id, Minus(Live(next.users[id]), Baseline(ledger, fallback, id))) in r2.uploads
  {
  }

  /** An acknowledged delta moves the baseline to the counters it was
      computed from, so the next run reports only what accrued since. */
  lemma AckAdvancesBaseline(active: Table, next: Table, ledger: Ledger,
                            fallback: Id -> Counters, reply1: Id -> Reply,
                            reply2: Id -> Reply, id: Id)
    requires Valid(active) && Valid(next)
    requires id in active.users && id in next.users
    requires Total(Live(active.users[id])) > Total(Baseline(ledger, fallback, id))
    requires reply1(id) == Acked
    requires Total(Live(next.users[id])) > Total(Live(active.users[id]))
    ensures var r1 := Account(active, ledger, fallback, reply1);
            var r2 := Account(next, r1.ledger, fallback, reply2);
            && id in r1.ledger && r1.ledger[id] == Live(active.users[id])
            && Upload(id, Minus(Live(next.users[id]), Live(active.users[id]))) in r2.uploads
  {
  }

  /** One user's reading in one run, with the panel's answer to its upload. */
  datatype Observation = Observation(live: Counters, reply: Reply)

  /** The baseline after a series of runs. */
  function Replay(base: Counters, obs: seq<Observation>): Counters
    decreases |obs|
  {
    if obs == [] then base
    else Replay(Next(base, obs[0]), obs[1..])
  }

  /** The baseline after one run. */
  function Next(base: Counters, o: Observation): Counters {
    NextBaseline(base, StepUser(base, o.live, o.reply))
  }

  /** Only the live counters of some run ever become a baseline: after any
      series of runs the baseline is the starting one or the live counters
      one of the runs saw. */
  lemma {:induction false} BaselineIsSomeLiveReading(base: Counters, obs: seq<Observation>)
    ensures Replay(base, obs) == base
            || exists k :: 0 <= k < |obs| && Replay(base, obs) == obs[k].live
    decreases |obs|
  {
    if obs != [] {
      var next := Next(base, obs[0]);
      BaselineIsSomeLiveReading(next, obs[1..]);
      if Replay(next, obs[1..]) != next {
        var k :| 0 <= k < |obs[1..]| && Replay(next, obs[1..]) == obs[1..][k].live;
        assert obs[k + 1] == obs[1..][k];
      }
      assert next == base || next == obs[0].live;
    }
  }

  /** The growth of the total one run got acknowledged, or zero. */
  function AckedGain(base: Counters, o: Observation): int {
    var s := StepUser(base, o.live, o.reply);
    if s.sent.Some? && o.reply == Acked then Total(s.sent.value) else 0
  }

  /** The jump of the total one run's anomaly reset made, or zero. */
  function ResetJump(base: Counters, o: Observation): int {
    if Total(o.live) < Total(base) then Total(o.live) - Total(base) else 0
  }

  /** One run moves the baseline total by its acknowledged growth plus its
      reset jump. */
  lemma StepConserves(base: Counters, o: Observation)
    ensures Total(Next(base, o)) == Total(base) + AckedGain(base, o) + ResetJump(base, o)
  {
  }

  /** The total growth the panel acknowledged over a series of runs. */
  function AckedTotal(base: Counters, obs: seq<Observation>): int
    decreases |obs|
  {
    if obs == [] then 0 else AckedGain(base, obs[0]) + AckedTotal(Next(base, obs[0]), obs[1..])
  }

  /** The total of the jumps anomaly resets made over a series of runs. */
  function ResetTotal(base: Counters, obs: seq<Observation>): int
    decreases |obs|
  {
    if obs == [] then 0 else ResetJump(base, obs[0]) + ResetTotal(Next(base, obs[0]), obs[1..])
  }

  /** Nothing but an acknowledged upload or an anomaly reset ever moves a
      baseline total: over any series of runs it moves by exactly the
      acknowledged growth plus the reset jumps. */
  lemma {:induction false} BaselineMovesOnlyByAckOrReset(base: Counters, obs: seq<Observation>)
    ensures Total(Replay(base, obs)) == Total(base) + AckedTotal(base, obs) + ResetTotal(base, obs)
    decreases |obs|
  {
    if obs != [] {
      var next := Next(base, obs[0]);
      BaselineMovesOnlyByAckOrReset(next, obs[1..]);
      StepConserves(base, obs[0]);
      assert Replay(base, obs) == Replay(next, obs[1..]);
    }
  }

  /** The totals a series of runs sees never go backwards, starting from
      `base`. */
  predicate Climbing(base: Counters, obs: seq<Observation>) {
    && (forall k :: 0 <= k < |obs| ==> Total(base) <= Total(obs[k].live))
    && (forall i, j :: 0 <= i < j < |obs| ==> Total(obs[i].live) <= Total(obs[j].live))
  }

  lemma ClimbingTail(base: Counters, next: Counters, obs: seq<Observation>)
    requires obs != [] && Climbing(base, obs) && Total(next) == Total(obs[0].live)
    ensures Climbing(next, obs[1..])
  {
    var rest := obs[1..];
    forall k | 0 <= k < |rest| ensures Total(next) <= Total(rest[k].live) {
      assert rest[k] == obs[k + 1];
    }
    forall i, j | 0 <= i < j < |rest| ensures Total(rest[i].live) <= Total(rest[j].live) {
      assert rest[i] == obs[i + 1] && rest[j] == obs[j + 1];
    }
  }

  /** When every upload is acknowledged and the totals never go backwards,
      no reset happens, the acknowledged growth adds up to the growth of
      the total over the whole series, and the final baseline carries the
      final total. */
  lemma {:induction false} AckedDeltasTelescope(base: Counters, obs: seq<Observation>)
    requires forall k :: 0 <= k < |obs| ==> obs[k].reply == Acked
    requires Climbing(base, obs)
    ensures ResetTotal(base, obs) == 0
    ensures AckedTotal(base, obs) == Total(Replay(base, obs)) - Total(base)
    ensures obs != [] ==> Total(Replay(base, obs)) == Total(obs[|obs| - 1].live)
    decreases |obs|
  {
    if obs != [] {
      var next := Next(base, obs[0]);
      var rest := obs[1..];
      assert Total(next) == Total(obs[0].live);
      ClimbingTail(base, next, obs);
      forall k | 0 <= k < |rest| ensures rest[k].reply == Acked {
        assert rest[k] == obs[k + 1];
      }
      AckedDeltasTelescope(next, rest);
      assert Replay(base, obs) == Replay(next, rest);
      if rest != [] {
        assert rest[|rest| - 1] == obs[|obs| - 1];
      }
    }
  }

  /** A series of runs of the accountant: the active users of each run and
      the panel's answers in it. */
  datatype Tick = Tick(active: Table, reply: Id -> Reply)

  predicate ValidTicks(ticks: seq<Tick>) {
    forall k :: 0 <= k < |ticks| ==> Valid(ticks[k].active)
  }

  /** The ledger after a series of runs. */
  function RunTicks(ledger: Ledger, fallback: Id -> Counters, ticks: seq<Tick>): Ledger
    requires ValidTicks(ticks)
    decreases |ticks|
  {
    if ticks == [] then ledger
    else RunTicks(Account(ticks[0].active, ledger, fallback, ticks[0].reply).ledger, fallback, ticks[1..])
  }

  /** What one user saw in each of a series of runs it was active in. */
  function ObservationsOf(ticks: seq<Tick>, id: Id): (obs: seq<Observation>)
    requires forall k :: 0 <= k < |ticks| ==> id in ticks[k].active.users
    ensures |obs| == |ticks|
    decreases |ticks|
  {
    if ticks == [] then []
    else [Observation(Live(ticks[0].active.users[id]), ticks[0].reply(id))] + ObservationsOf(ticks[1..], id)
  }

  /** Over a series of runs in which a user stays active, and in which only
      the accountant's own stores change the ledger, its baseline evolves
      exactly as the single-user replay says, so the conservation and
      telescoping facts above hold of the ledger these runs leave. */
  lemma {:induction false} LedgerFollowsReplay(ledger: Ledger, fallback: Id -> Counters,
                                               ticks: seq<Tick>, id: Id)
    requires ValidTicks(ticks)
    requires forall k :: 0 <= k < |ticks| ==> id in ticks[k].active.users
    ensures Baseline(RunTicks(ledger, fallback, ticks), fallback, id)
            == Replay(Baseline(ledger, fallback, id), ObservationsOf(ticks, id))
    decreases |ticks|
  {
    if ticks != [] {
      var r := Account(ticks[0].active, ledger, fallback, ticks[0].reply);
      var obs := ObservationsOf(ticks, id);
      assert obs[1..] == ObservationsOf(ticks[1..], id);
      LedgerFollowsReplay(r.ledger, fallback, ticks[1..], id);
    }
  }
}

=== FILE: users.dfy ===
/** The records the agent moves between the panel and the local proxy manager:
    users keyed by their prefixed id, and the insertion-ordered dictionaries
    that hold them. */
module Users {

  datatype Option<+T> = None | Some(value: T) {

    /** The carried value, or `default` when there is none. */
    function GetOr(default: T): T {
      match this
      case Some(v) => v
      case None => default
    }
  }

  /** The stable key (`prefixed_id`) that identifies a user across polls. */
  type Id = string

  /** A user as the panel declares it or as the proxy manager holds it:
      credentials (cipher method and password), port, the availability flag
      and the two cumulative traffic counters the manager reports for it.
      The id, credentials and port only document the record: the
      reconciliation compares records through an abstract inequality, and
      nothing here reads those fields. */
  datatype User = User(
    id: Id,
    cipher: string,
    passwd: string,
    port: int,
    available: bool,
    upload: int,
    download: int)

  /** A dictionary keyed by prefixed id: `users` holds the entries and
      `order` is the order in which iterating the dictionary visits its keys. */
  datatype Table = Table(order: seq<Id>, users: map<Id, User>)

  predicate Distinct(s: seq<Id>) {
    forall i, j :: 0 <= i < j < |s| ==> s[i] != s[j]
  }

  /** Every key is visited exactly once. */
  predicate Valid(t: Table) {
    && Distinct(t.order)
    && (forall id :: id in t.order ==> id in t.users)
    && (forall id :: id in t.users ==> id in t.order)
  }

  /** Dropping the first key visited leaves a sequence without that key and
      without repetitions. */
  lemma DistinctTail(s: seq<Id>)
    requires Distinct(s) && |s| > 0
    ensures Distinct(s[1..])
    ensures s[0] !in s[1..]
  {
    forall j | 0 <= j < |s[1..]| ensures s[1..][j] != s[0] {
      assert s[1..][j] == s[j + 1];
    }
  }
}
